=== FILE: README.md ===
# Live device hub and BLE device list — a Dafny model

This project models two small sequential cores of the repository.

1. **The live hub in `main.py`.** It has three parts:
   - the shared device-state store `STATE`, which maps a device id to `{value, updated_at_utc}`;
   - the connection registry `ConnectionManager._connections`;
   - the WebSocket message dispatcher, together with the REST handlers that use the same store and broadcast steps.
2. **The device list of the archived BLE handler in `archive/main.py`.** This covers `add_device_list`, `ADDRESS`, and the texts the add/remove/list/greet routes reply with.

Each critical section under an `asyncio.Lock` is one atomic step. Everything is an immutable value:
- the store is a `map`;
- the registry is a `set`;
- a broadcast is a pure function of its snapshot, the per-handle send outcomes and the registry at pruning time;
- a WebSocket turn is a total case analysis that returns the new hub, the sends it made, and whether the connection is still open.

Modules:

| file | module | models |
|---|---|---|
| `wrappers.dfy` | `Wrappers` | `Option` and `Result` |
| `json.dfy` | `JsonValues` | decoded JSON values with Python truthiness, hashability and `dict.get` |
| `state_store.dfy` | `StateStore` | `STATE` and its writes |
| `registry.dfy` | `ConnectionRegistry` | `connect`, `disconnect`, `count` |
| `events.dfy` | `Events` | the outbound events `hello`, `data_update`, `control`, `pong` and `echo` |
| `broadcast.dfy` | `BroadcastHub` | `ConnectionManager.broadcast` |
| `dispatcher.dfy` | `Dispatcher` | `websocket_endpoint`: the handshake, the dispatch on `type`, and the `except` cleanup |
| `rest_api.dfy` | `RestApi` | `status`, `get_data`, `post_data`, `control` |
| `decimal.dfy` | `Decimal` | `f"{counter}"` |
| `device_list.dfy` | `DeviceList` | `append_info`, `find_wanted_ble_device`, `find_unwanted_ble_device`, `list_current_devices`, `handle_greeting` |

Environment inputs are parameters:
- **Clock readings.** Each `utc_now_iso()` call is an opaque `Timestamp`. Handlers that read the clock twice take two readings.
- **Send outcomes.** The result of `send_json` is a map from handle to `Fault`. `PeerGone` stands for `WebSocketDisconnect` and `SendError` for any other exception. A handle missing from the map is sent to successfully.
- **Snapshot order.** The iteration order of `list(self._connections)` is the sequence `order`.

Some behaviours are easy to misread. The model keeps them as the code does them:
- **Telemetry without a usable id.** A `telemetry` message with a missing or falsy `device_id` raises `HTTPException`. The generic `except Exception` catches it, discards the sender and re-raises. The connection is therefore closed, not kept open with an error reply.
- **List or dict id.** A `device_id` that is a non-empty list or dict is truthy, so it passes the check, but it cannot key `STATE`. Python raises `TypeError`, and the same path follows.
- **Non-object frame.** A frame that decodes to a non-object fails at `msg.get` with `AttributeError`, and the same path follows.
- **`hello` send failure.** The `hello` send sits outside the `try`. If it fails, the exception propagates and the handle stays registered. A later broadcast whose send to that handle fails removes it.
- **Source tags and field names.** Sources are tagged `rest` and `websocket`. The status field is `websocket_clients_connected`.
- **Store writes.** A store write returns nothing.

## Model

| member | source | states |
|---|---|---|
| StateStore.Put | main.py:205-209 | a write sets the record of that id to the new value and time, adds the id if new, and leaves every other key and record unchanged |
| StateStore.LastWriteWins | main.py:274-275 | after any run of committed writes, an id's record is the one of the last write to it; an id no write touches keeps its earlier record or stays absent |
| StateStore.SecondWriteIsAuthoritative | main.py:205-209 | two writes to the same id: a later read shows the second value |
| ConnectionRegistry.Connect | main.py:25-28 | the handle is registered afterwards, no other membership changes, and the count grows by one exactly when the handle was new |
| ConnectionRegistry.Disconnect | main.py:30-32 | the handle is absent afterwards, no other membership changes, discarding an absent handle is a no-op, and the count drops by one exactly when it was present |
| ConnectionRegistry.Count | main.py:53-55 | the count is zero exactly when no handle is registered; its growth and shrinkage per call are stated on `Connect` and `Disconnect` |
| ConnectionRegistry.ReplayMembership | main.py:25-32 | after any serialised run of connects and disconnects, a handle is registered iff the last call naming it was a connect, or none named it and it was registered before |
| ConnectionRegistry.CountAfterConnectsAndDisconnects | main.py:53-55 | N connects of distinct new handles, then M disconnects of distinct handles among them, leave the count at the old count + N - M |
| BroadcastHub.Deliver | main.py:40-45 | every snapshot handle is tried exactly once, in snapshot order, with the same event; a failure does not skip later handles; the dead list holds exactly the snapshot handles whose send failed |
| BroadcastHub.Prune | main.py:47-51 | after cleanup, a handle is registered iff it was registered at pruning time and is not in the dead list |
| BroadcastHub.Broadcast | main.py:34-51 | one attempt per snapshot handle with the same event; the registry afterwards is the registry at pruning time minus exactly the snapshot handles whose send failed |
| BroadcastHub.ExactlyOneFailure | main.py:34-51 | with a snapshot of K registered handles of which exactly one fails, the other K-1 sends go through and the registry ends with exactly K-1 members |
| BroadcastHub.LateJoinerUntouched | main.py:36-51 | a handle registered after the snapshot is neither sent the event nor pruned |
| Dispatcher.Dispatch | main.py:263-310 | only telemetry with a truthy, hashable id changes the store, and only by writing that id's value; the handler raises exactly for a non-object frame or unusable telemetry; it broadcasts exactly for usable telemetry and `control`; any direct reply goes to the sender, and it is a `pong` exactly for `ping` |
| Dispatcher.Perform | main.py:260-317 | a direct reply is addressed only to the sender, since `websocket.send_json` always answers the connection being served; carrying out an action never touches the store and never adds a handle; the connection ends exactly when the handler raised or a direct send failed, and then the registry is the old one minus the sender; it ends without re-raising only when the failed send raised `WebSocketDisconnect`; a broadcast makes one attempt per snapshot handle, in snapshot order, all with the same event, and afterwards the registry is the old one minus exactly the snapshot handles whose send failed |
| Dispatcher.Receive | main.py:260-317 | one turn of the receive loop never adds a handle; it changes the store only for usable telemetry; it ends without re-raising only on a client disconnect or when a direct reply to the sender fails with `WebSocketDisconnect` |
| Dispatcher.OnConnect | main.py:245-258 | the handle is registered before `hello` is sent; `hello` carries the store as it is at that point; a failed `hello` ends the connection with an exception and leaves the handle registered |
| Dispatcher.TelemetryUpdatesAndBroadcasts | main.py:268-284 | telemetry with a truthy hashable id stores the value under that id only and sends one `data_update` from `websocket` to every registered handle; exactly the failing handles are pruned; the connection stays open |
| Dispatcher.TelemetryReachesSender | main.py:277-284 | the sender of telemetry receives its own `data_update`, because the sender is not excluded |
| Dispatcher.TelemetryWithoutUsableIdDropsSender | main.py:268-317 | telemetry whose id is missing, falsy, a list or a dict changes no state and sends nothing; the sender is discarded and the error is re-raised |
| Dispatcher.NonObjectFrameDropsSender | main.py:263-317 | a frame that is not a JSON object leaves the store alone, removes the sender and no other handle, and re-raises |
| Dispatcher.PingAnswersSenderOnly | main.py:286-317 | `ping` sends exactly one `pong`, to the sender; no store change, no broadcast; if that send fails, the sender is discarded and the error is re-raised unless it is `WebSocketDisconnect` |
| Dispatcher.UnknownTypeEchoesToSender | main.py:301-317 | an unrecognised or missing `type` sends exactly one `echo` to the sender, whose `received` is the original message; no store change, no broadcast; if that send fails, the sender is discarded and the error is re-raised unless it is `WebSocketDisconnect` |
| Dispatcher.ControlIsRelayed | main.py:289-298 | WebSocket `control` never changes the store; it sends every snapshot handle the same `control` event, with the message's `target` and `command`, source `websocket` and one timestamp; `args` is kept when truthy and `{}` otherwise; exactly the failing snapshot handles are pruned |
| Dispatcher.EveryExitDiscardsSender | main.py:312-317 | every way the receive loop ends leaves the registry as before minus the sender; it ends without re-raising only on `WebSocketDisconnect`, from the receive or from a failed direct send |
| Dispatcher.OnlySenderOrFailedHandlesLeave | main.py:260-317 | handling one inbound message never registers a handle; a handle other than the sender stays registered unless it was in the broadcast snapshot and its send failed, so a handle with a failure outside the snapshot, and every bystander of a `ping`, echo or raise, stays |
| Dispatcher.GreetingThenOwnTelemetry | main.py:245-284 | a client joining an empty hub gets `hello` with an empty snapshot; its telemetry `t1 = 23.5` is stored and comes back to it as a `data_update` from `websocket` |
| Dispatcher.FailedHelloIsPrunedByNextBroadcast | main.py:245-258 | after a failed `hello` the handle remains registered until a broadcast whose send to it fails removes it |
| RestApi.Status | main.py:179-189 | `devices_known` is the number of ids in the store and the client count is the registry's size |
| RestApi.GetData | main.py:192-199 | the data returned is the store as it stands |
| RestApi.PostData | main.py:202-221 | rejected exactly when `device_id` is empty; otherwise only that id's record is set, the reply echoes a `data_update` from `rest` with the same id and value plus `stored = true`, and that event is broadcast |
| RestApi.ControlViolations | main.py:78-81 | a control body is valid exactly when both `target` and `command` are non-empty |
| RestApi.ControlCommand | main.py:224-237 | never changes the store; broadcasts `control` from `rest` with the body's `target` and `command`; `args` is `{}` exactly when absent or empty, and otherwise the given dict; exactly the failing snapshot handles are pruned |
| RestApi.ExternalUpdateReachesSubscriber | main.py:202-221 | a REST update of `t2 = 7` reaches a registered subscriber as a `data_update` from `rest`, and a later data read shows `t2 = 7` |
| RestApi.ReadAfterPost | main.py:192-221 | after any accepted data post, a data read holds `Record(value, t1)` for that id and every other record unchanged |
| RestApi.StatusAfterPost | main.py:179-221 | after an accepted data post, `devices_known` is one higher exactly when the id was new; with no failed send the client count is unchanged |
| RestApi.StatusAfterConnect | main.py:179-258 | after a handshake, the client count is one higher exactly when the handle was new, and `devices_known` is unchanged |
| Decimal.Show | archive/main.py:253 | the counter's text is non-empty, all decimal digits, with no leading zero |
| Decimal.ParseShow | archive/main.py:253 | the counter's text reads back as the counter, so distinct numbers get distinct texts |
| DeviceList.AppendInfo | archive/main.py:273-280 | the item is added at the end of the list; the earlier items, the address and the scan results are unchanged |
| DeviceList.FindWanted | archive/main.py:78-128 | `ADDRESS` becomes `addr_id` (default `Anonymous`); the same value is appended to the list; the reply is the format banner, the numbered scanned devices, a rule, then the address |
| DeviceList.FindUnwanted | archive/main.py:132-178 | the list is empty afterwards and nothing else changes; the empty case replies "no devices added", the one-device case names the popped device, and more devices get the "disconnect all" text |
| DeviceList.RemoveTwice | archive/main.py:146-178 | a second removal right after a first is a no-op that reports there is nothing to remove |
| DeviceList.NumberedLinesAppend | archive/main.py:247-259 | the numbered lines of a concatenation are those of the first part, then the second part numbered on from where the first stopped |
| DeviceList.ItemLine | archive/main.py:247-259 | item i of the list is rendered as the line `Device first+i : item`, after the lines of the earlier items and before the rest |
| DeviceList.ServeAllKeepsAddressLatest | archive/main.py:117-176 | every run of add/remove/list/greet requests keeps this invariant: when the list is non-empty, its last element is `ADDRESS` |
| DeviceList.LongListing | archive/main.py:239-261 | with more than one device, listing is the header followed by the line `Device i+1 : item` for each item i, in list order, between the lines of the items before and after it |
| DeviceList.ListingAfterRequests | archive/main.py:224-261 | after any run of requests from a fresh handler, listing gives the "no devices" text when empty and the single device's own address when one device is listed (although the code replies with `ADDRESS`); with more, the reply is the header followed by `Device k : item` lines numbered from 1 in list order |
| DeviceList.ListCurrent | archive/main.py:224-261 | an empty list gives the "no devices" text; one device gives `ADDRESS` (empty when unset); more give the header, then `Device 1 : first item`, then the rest numbered on from 2 |
| DeviceList.Greeting | archive/main.py:325-338 | the reply is `Hello, ` followed by the name, with default `Anonymous` |

## Left out

- Lock acquisition and real interleaving. Each critical section is one atomic step. The only interleaving captured is a registry change between a broadcast's snapshot and its cleanup, which `Broadcast` takes as its `atPrune` parameter. The WebSocket and REST handlers are sequential and pass their current registry.
- FastAPI, pydantic and aiohttp wiring, JSON framing, HTTP status codes, and the HTML index page (main.py:87-177). Request validation is modelled only as the `min_length=1` checks. A body with a missing or ill-typed field is not modelled.
- `utc_now_iso` and `datetime`. Timestamps are opaque parameters.
- The outcome of each `send_json` call, which is I/O. It is a parameter. Which exception a closed socket raises on send is also a parameter (`PeerGone` or `SendError`).
- Python's cross-type key equality (`1 == 1.0 == True` hash alike) and non-finite JSON numbers (`NaN`). The model treats `JBool(true)` and `JNum(1.0)` as different device ids.
- `websocket.accept()` failing inside `connect`: that is I/O that happens before the handle is added. It would leave the registry unchanged and is not modelled.
- The receive loop as a whole. One turn is `Receive`; the loop is repeated turns.
- DeviceList.FindUnwanted: its reply quotes the list through `ListRepr`, and Python's `repr` of a string also chooses double quotes and escapes special characters. The model always quotes with `'` and escapes nothing.
- `find_local_ble_devices`, `connect_ble_device`, `disconnect_ble_device` and `async_user_input`. These are BLE and console I/O. The scan results appear only as the `scanned` field, which the model never writes.
- `handle_general`, `handle_intro`, `handle_bluetooth_general`, `handle_test_bluetooth_connection`, the `handle_bluetooth_*` forwarders and the route table. These are constant texts or one-line delegations with no state.
- All `print` output.
- The demo clients `device_one.py`, `device_two.py` and `archive/device_one.py`, and the scan script `test.py`. They contain only network or BLE I/O.

=== FILE: broadcast.dfy ===
/** `ConnectionManager.broadcast`: snapshot the registry, try every handle of
    the snapshot independently, collect the failures, then discard exactly
    those from the registry as it stands at pruning time. */
module BroadcastHub {
  import opened StateStore
  import opened ConnectionRegistry
  import opened Events

  /** The two shared resources of the hub. */
  datatype Hub = Hub(store: Store, conns: set<Handle>)

  /** How `send_json` fails for a handle: the peer has gone
      (`WebSocketDisconnect`) or some other exception. */
  datatype Fault = PeerGone | SendError

  /** The handles whose sends raise during this step, and how. This stands for
      the I/O outcome of `send_json`, which the model cannot see. */
  type Failures = map<Handle, Fault>

  /** One call of `send_json(ev)` on `to`, and whether it went through. */
  datatype Attempt = Attempt(to: Handle, ev: Event, delivered: bool)

  datatype Fanout = Fanout(attempts: seq<Attempt>, dead: seq<Handle>)

  /** The send loop: every handle of the snapshot is tried once, in snapshot
      order, with the same event; a failing send is recorded in `dead` and the
      loop goes on with the next handle. */
  function Deliver(snapshot: seq<Handle>, ev: Event, failures: Failures): (r: Fanout)
    ensures |r.attempts| == |snapshot|
    ensures forall i :: 0 <= i < |snapshot| ==>
              r.attempts[i] == Attempt(snapshot[i], ev, snapshot[i] !in failures)
    ensures forall h :: h in r.dead <==> h in snapshot && h in failures
    decreases |snapshot|
  {
    if |snapshot| == 0 then Fanout([], [])
    else
      var prev := Deliver(snapshot[..|snapshot| - 1], ev, failures);
      var ws := snapshot[|snapshot| - 1];
      if ws in failures then
        Fanout(prev.attempts + [Attempt(ws, ev, false)], prev.dead + [ws])
      else
        Fanout(prev.attempts + [Attempt(ws, ev, true)], prev.dead)
  }

  /** The cleanup step: when `dead` is non-empty, each of its handles is
      discarded from the registry as it stands now. */
  function Prune(current: set<Handle>, dead: seq<Handle>): (r: set<Handle>)
    ensures forall h :: h in r <==> h in current && h !in dead
  {
    if |dead| == 0 then current
    else current - Elements(dead)
  }

  datatype Outcome = Outcome(attempts: seq<Attempt>, conns: set<Handle>)

  /** One broadcast. `snapshot` is `list(self._connections)` taken at the start;
      `atPrune` is the registry when the cleanup lock is taken, which other
      connects and disconnects may have changed in between. */
  function Broadcast(snapshot: seq<Handle>, ev: Event, failures: Failures, atPrune: set<Handle>): (r: Outcome)
    ensures |r.attempts| == |snapshot|
    ensures forall i :: 0 <= i < |snapshot| ==>
              r.attempts[i] == Attempt(snapshot[i], ev, snapshot[i] !in failures)
    ensures forall h :: h in r.conns <==> h in atPrune && !(h in snapshot && h in failures)
  {
    var fan := Deliver(snapshot, ev, failures);
    Outcome(fan.attempts, Prune(atPrune, fan.dead))
  }

  /** The snapshot lists each registered handle exactly once (the iteration
      order of the set is left open). */
  predicate Enumerates(snapshot: seq<Handle>, conns: set<Handle>) {
    Distinct(snapshot) && Elements(snapshot) == conns
  }

  /** A snapshot of K handles in which exactly one send fails: every other
      handle's attempt goes through, and the registry ends with K - 1 members,
      the failed one removed and the others untouched. */
  lemma ExactlyOneFailure(snapshot: seq<Handle>, ev: Event, failures: Failures, conns: set<Handle>, bad: Handle)
    requires Enumerates(snapshot, conns)
    requires bad in conns && bad in failures
    requires forall h :: h in conns && h != bad ==> h !in failures
    ensures var r := Broadcast(snapshot, ev, failures, conns);
            && |r.conns| == |snapshot| - 1
            && r.conns == conns - {bad}
            && forall i :: 0 <= i < |snapshot| && snapshot[i] != bad ==> r.attempts[i].delivered
  {
    var r := Broadcast(snapshot, ev, failures, conns);
    assert r.conns == conns - {bad};
    DistinctCardinality(snapshot);
    assert Elements(snapshot) == conns;
  }

  /** A broadcast racing with a connect: a handle registered after the
      snapshot is neither sent the event nor pruned, whatever its sends would do. */
  lemma LateJoinerUntouched(snapshot: seq<Handle>, ev: Event, failures: Failures, atPrune: set<Handle>, late: Handle)
    requires late in atPrune && late !in snapshot
    ensures var r := Broadcast(snapshot, ev, failures, atPrune);
            && late in r.conns
            && forall i :: 0 <= i < |r.attempts| ==> r.attempts[i].to != late
  {
  }
}

=== FILE: decimal.dfy ===
/** Python's `str(n)` / `f"{n}"` for a non-negative int, and its inverse. */
module Decimal {

  predicate IsDigit(c: char) {
    '0' <= c <= '9'
  }

  function DigitChar(d: nat): (c: char)
    requires d < 10
    ensures IsDigit(c)
  {
    ('0' as int + d) as char
  }

  function DigitValue(c: char): (d: nat)
    requires IsDigit(c)
    ensures d < 10
  {
    c as int - '0' as int
  }

  /** The decimal text of `n`: digits only, never empty, no leading zero. */
  function Show(n: nat): (s: string)
    ensures |s| >= 1
    ensures forall i :: 0 <= i < |s| ==> IsDigit(s[i])
    ensures |s| > 1 ==> s[0] != '0'
    decreases n
  {
    if n < 10 then [DigitChar(n)] else Show(n / 10) + [DigitChar(n % 10)]
  }

  /** The value a run of decimal digits denotes. */
  function Parse(s: string): nat
    requires forall i :: 0 <= i < |s| ==> IsDigit(s[i])
    decreases |s|
  {
    if |s| == 0 then 0 else Parse(s[..|s| - 1]) * 10 + DigitValue(s[|s| - 1])
  }

  /** The text `Show` produces reads back as the number it came from, so
      distinct numbers get distinct texts. */
  lemma {:induction false} ParseShow(n: nat)
    ensures Parse(Show(n)) == n
    decreases n
  {
    var s := Show(n);
    if n >= 10 {
      ParseShow(n / 10);
      assert s[..|s| - 1] == Show(n / 10);
    }
  }
}

=== FILE: device_list.dfy ===
/** The device-list bookkeeping of the archived BLE `Handler`: the wanted
    address, the list of added devices, and the texts the routes reply with.
    Bluetooth calls and terminal output are stripped away. */
module DeviceList {
  import opened Wrappers
  import Decimal

  /** `ADDRESS`, the addresses the last scan found (`self.devices`), and
      `add_device_list`. */
  datatype Handler = Handler(address: Option<string>, scanned: seq<string>, wanted: seq<string>)

  /** `Handler()`: no address, nothing scanned, nothing added. */
  const Initial := Handler(None, [], [])

  const Anonymous := "Anonymous"
  const Rule := "==========================================\n"
  const FormatBanner :=
    "The format for the MAC Address is (Any Numerical Value and/or any character between A-F): \n"
    + "XX:XX:XX:XX:XX:XX \n" + "or \n" + "XXXXXXXXXXXX \n" + Rule
  const NothingToRemove := "There are no device's been added to the program"
  const RemoveAllText := "We are going to disconnect all devices from the application!!!"
  const NothingToList := "There are no devices to display!!!! Add a device first!!!"
  const ListHeader := "\t \t YOUR CURRENT LIST OF DEVICE'S\n"

  /** `f"Device {k} : {item}\n"` */
  function DeviceLine(k: nat, item: string): string {
    "Device " + Decimal.Show(k) + " : " + item + "\n"
  }

  /** The lines a `for` loop with a counter emits, numbering from `first`. */
  function NumberedLines(items: seq<string>, first: nat): string
    decreases |items|
  {
    if |items| == 0 then "" else DeviceLine(first, items[0]) + NumberedLines(items[1..], first + 1)
  }

  /** Numbering is positional: the lines of `a + b` are those of `a`, then
      those of `b` numbered on from where `a` stopped. */
  lemma {:induction false} NumberedLinesAppend(a: seq<string>, b: seq<string>, first: nat)
    ensures NumberedLines(a + b, first) == NumberedLines(a, first) + NumberedLines(b, first + |a|)
    decreases |a|
  {
    if |a| > 0 {
      assert (a + b)[1..] == a[1..] + b;
      NumberedLinesAppend(a[1..], b, first + 1);
    } else {
      assert a + b == b;
    }
  }

  /** In list order, item `i` is rendered as the line numbered `first + i`,
      preceded by the lines of the items before it and followed by the rest. */
  lemma ItemLine(items: seq<string>, first: nat, i: nat)
    requires i < |items|
    ensures NumberedLines(items, first) ==
              NumberedLines(items[..i], first) + DeviceLine(first + i, items[i])
              + NumberedLines(items[i + 1..], first + i + 1)
  {
    assert items == items[..i] + ([items[i]] + items[i + 1..]);
    NumberedLinesAppend(items[..i], [items[i]] + items[i + 1..], first);
    assert ([items[i]] + items[i + 1..])[1..] == items[i + 1..];
  }

  /** Python's `str(list)` for a list of strings (each quoted with `'`). */
  function ListRepr(items: seq<string>): string {
    "[" + QuotedItems(items) + "]"
  }

  function QuotedItems(items: seq<string>): string
    decreases |items|
  {
    if |items| == 0 then ""
    else if |items| == 1 then "'" + items[0] + "'"
    else "'" + items[0] + "', " + QuotedItems(items[1..])
  }

  /** `append_info`: the item goes at the end of `add_device_list`; nothing
      else changes. */
  function AppendInfo(h: Handler, item: string): (r: Handler)
    ensures |r.wanted| == |h.wanted| + 1
    ensures r.wanted[..|h.wanted|] == h.wanted && r.wanted[|h.wanted|] == item
    ensures r.address == h.address && r.scanned == h.scanned
  {
    h.(wanted := h.wanted + [item])
  }

  /** `find_wanted_ble_device`: `ADDRESS` becomes the path's `addr_id`
      (default `"Anonymous"`), that same value is appended to the list, and the
      reply lists the scanned devices between two rules, then the address. */
  function FindWanted(h: Handler, addrId: Option<string>): (r: (Handler, string))
    ensures r.0.address == Some(addrId.GetOr(Anonymous))
    ensures r.0.wanted == h.wanted + [addrId.GetOr(Anonymous)]
    ensures r.0.scanned == h.scanned
    ensures r.1 == FormatBanner + NumberedLines(h.scanned, 1) + Rule + addrId.GetOr(Anonymous)
  {
    var addr := addrId.GetOr(Anonymous);
    var text := FormatBanner + NumberedLines(h.scanned, 1) + Rule + addr;
    (AppendInfo(h.(address := Some(addr)), addr), text)
  }

  /** `find_unwanted_ble_device`: an empty list is left alone; a single
      device is popped; more than one are all cleared. */
  function FindUnwanted(h: Handler): (r: (Handler, string))
    ensures r.0.wanted == []
    ensures r.0.address == h.address && r.0.scanned == h.scanned
    ensures |h.wanted| == 0 <==> r.1 == NothingToRemove
    ensures |h.wanted| == 1 ==>
              r.1 == "You only have one device listed \n"
                     + "Your current device is: ['" + h.wanted[0] + "'] \n"
                     + "The device will be removed from the program \n"
                     + "Your device has been removed \n"
    ensures |h.wanted| > 1 ==> r.1 == RemoveAllText
  {
    if |h.wanted| == 0 then (h, NothingToRemove)
    else if |h.wanted| == 1 then
      var text := "You only have one device listed \n"
                  + "Your current device is: " + ListRepr(h.wanted) + " \n"
                  + "The device will be removed from the program \n"
                  + "Your device has been removed \n";
      (h.(wanted := h.wanted[1..]), text)
    else
      (h.(wanted := []), RemoveAllText)
  }

  /** `list_current_devices`. With one device the reply is `ADDRESS`, not the
      listed element (a `None` address gives an empty body). */
  function ListCurrent(h: Handler): (r: string)
    ensures |h.wanted| == 0 ==> r == NothingToList
    ensures |h.wanted| == 1 ==> r == h.address.GetOr("")
    ensures |h.wanted| > 1 ==> r == ListHeader + DeviceLine(1, h.wanted[0]) + NumberedLines(h.wanted[1..], 2)
  {
    if |h.wanted| == 0 then NothingToList
    else if |h.wanted| == 1 then h.address.GetOr("")
    else ListHeader + NumberedLines(h.wanted, 1)
  }

  /** `handle_greeting`: `"Hello, "` and the path's `name`, default `"Anonymous"`. */
  function Greeting(name: Option<string>): (r: string)
    ensures |r| >= 7 && r[..7] == "Hello, "
    ensures r[7..] == name.GetOr(Anonymous)
  {
    "Hello, " + name.GetOr(Anonymous)
  }

  /** A second removal right after a first is a no-op that reports there is
      nothing to remove. */
  lemma RemoveTwice(h: Handler)
    ensures FindUnwanted(FindUnwanted(h).0) == (FindUnwanted(h).0, NothingToRemove)
  {
  }

  /** The routes keep this true: whenever the list is non-empty, its last
      element is `ADDRESS`. */
  predicate AddressIsLatest(h: Handler) {
    |h.wanted| > 0 ==> h.address == Some(h.wanted[|h.wanted| - 1])
  }

  /** The requests a client can make of the list. */
  datatype Request = Add(addrId: Option<string>) | RemoveDevice | ListDevices | Greet(name: Option<string>)

  /** One request, with its reply. */
  function Serve(h: Handler, req: Request): (Handler, string) {
    match req
    case Add(addrId) => FindWanted(h, addrId)
    case RemoveDevice => FindUnwanted(h)
    case ListDevices => (h, ListCurrent(h))
    case Greet(name) => (h, Greeting(name))
  }

  function ServeAll(h: Handler, reqs: seq<Request>): Handler
    decreases |reqs|
  {
    if |reqs| == 0 then h else ServeAll(Serve(h, reqs[0]).0, reqs[1..])
  }

  /** From a fresh handler, any run of requests keeps `ADDRESS` equal to the
      last listed device. */
  lemma {:induction false} ServeAllKeepsAddressLatest(h: Handler, reqs: seq<Request>)
    requires AddressIsLatest(h)
    ensures AddressIsLatest(ServeAll(h, reqs))
    decreases |reqs|
  {
    if |reqs| > 0 {
      var next := Serve(h, reqs[0]).0;
      assert AddressIsLatest(next);
      ServeAllKeepsAddressLatest(next, reqs[1..]);
    }
  }

  /** With more than one device, the listing is the header followed by one
      numbered line per device, from 1, in list order. */
  lemma LongListing(h: Handler, i: nat)
    requires |h.wanted| > 1 && i < |h.wanted|
    ensures ListCurrent(h) == ListHeader + NumberedLines(h.wanted[..i], 1)
                              + DeviceLine(i + 1, h.wanted[i]) + NumberedLines(h.wanted[i + 1..], i + 2)
  {
    ItemLine(h.wanted, 1, i);
  }

  /** So after any run of requests, listing a single device names that device
      even though the code replies with `ADDRESS`; with more, the reply is the
      header followed by one numbered line per device, from 1, in list order. */
  lemma ListingAfterRequests(reqs: seq<Request>)
    ensures var h := ServeAll(Initial, reqs);
            && (|h.wanted| == 0 ==> ListCurrent(h) == NothingToList)
            && (|h.wanted| == 1 ==> ListCurrent(h) == h.wanted[0])
            && (|h.wanted| > 1 ==> forall i :: 0 <= i < |h.wanted| ==>
                  ListCurrent(h) == ListHeader + NumberedLines(h.wanted[..i], 1)
                                    + DeviceLine(i + 1, h.wanted[i]) + NumberedLines(h.wanted[i + 1..], i + 2))
  {
    var h := ServeAll(Initial, reqs);
    ServeAllKeepsAddressLatest(Initial, reqs);
    if |h.wanted| > 1 {
      forall i | 0 <= i < |h.wanted|
        ensures ListCurrent(h) == ListHeader + NumberedLines(h.wanted[..i], 1)
                                  + DeviceLine(i + 1, h.wanted[i]) + NumberedLines(h.wanted[i + 1..], i + 2)
      {
        LongListing(h, i);
      }
    }
  }
}

=== FILE: dispatcher.dfy ===
/** `websocket_endpoint`: the connect handshake and, per inbound message, the
    closed case analysis on its `type`, followed by the cleanup of the
    `except` clauses. */
module Dispatcher {
  import opened JsonValues
  import opened StateStore
  import opened ConnectionRegistry
  import opened Events
  import opened BroadcastHub

  /** What handling one message asks of the hub, once the store is updated. */
  datatype Action =
    | SendTo(to: Handle, ev: Event)   // `websocket.send_json(...)` to the sender
    | Publish(ev: Event)              // `manager.broadcast(...)`
    | Raise                           // an exception raised while handling the message

  datatype Plan = Plan(store: Store, action: Action)

  /** The `if/elif` chain on `msg.get("type")`. `t1` and `t2` are two successive
      readings of the clock (`utc_now_iso()`). */
  function Dispatch(store: Store, sender: Handle, msg: Json, t1: Timestamp, t2: Timestamp): (r: Plan)
    ensures r.store == store || (UsableTelemetry(msg) && r.store == Put(store, Get(msg.fields, "device_id"), Get(msg.fields, "value"), t1))
    ensures r.action.Raise? <==> !msg.JObj? || (HasType(msg, "telemetry") && !UsableTelemetry(msg))
    ensures r.action.Publish? <==> UsableTelemetry(msg) || HasType(msg, "control")
    ensures r.action.SendTo? ==> r.action.to == sender && (r.action.ev.Pong? <==> HasType(msg, "ping"))
  {
    match msg
    case JObj(fields) =>
      var msgType := Get(fields, "type");
      if msgType == JStr("telemetry") then
        var deviceId := Get(fields, "device_id");
        if !Truthy(deviceId) then
          // HTTPException(400, "telemetry missing device_id")
          Plan(store, Raise)
        else if !Hashable(deviceId) then
          // TypeError: a list or dict cannot key STATE
          Plan(store, Raise)
        else
          var value := Get(fields, "value");
          Plan(Put(store, deviceId, value, t1), Publish(DataUpdate(deviceId, value, t2, WebSocket)))
      else if msgType == JStr("ping") then
        Plan(store, SendTo(sender, Pong(t1)))
      else if msgType == JStr("control") then
        var args := OrElse(Get(fields, "args"), EmptyObject);
        Plan(store, Publish(Control(Get(fields, "target"), Get(fields, "command"), args, t1, WebSocket)))
      else
        Plan(store, SendTo(sender, Echo(t1, msg, UnrecognizedNote)))
    case _ =>
      // AttributeError: a decoded list, string, number or null has no `.get`
      Plan(store, Raise)
  }

  /** The connection's state after a step: still in the receive loop, or
      ended, with or without an exception re-raised to the server. */
  datatype Conn = Open | Closed(reraised: bool)

  datatype Step = Step(hub: Hub, attempts: seq<Attempt>, conn: Conn)

  /** Carries out an action for `sender`. A failing direct send or a raised
      exception lands in the `except` clauses: the sender is discarded, and
      only an exception other than `WebSocketDisconnect` is re-raised.
      `order` is the registry snapshot a broadcast iterates over. */
  function Perform(hub: Hub, sender: Handle, action: Action, order: seq<Handle>, failures: Failures): (r: Step)
    requires action.SendTo? ==> action.to == sender
    ensures r.hub.store == hub.store
    ensures r.hub.conns <= hub.conns
    ensures r.conn.Closed? <==> action.Raise? || (action.SendTo? && action.to in failures)
    ensures r.conn.Closed? ==> r.hub.conns == hub.conns - {sender}
    ensures action.Raise? ==> r.attempts == []
    ensures r.conn == Closed(false) ==> action.SendTo? && action.to in failures && failures[action.to] == PeerGone
    ensures action.Publish? ==> forall a :: a in r.attempts ==> a.ev == action.ev
    ensures action.Publish? ==> |r.attempts| == |order|
    ensures action.Publish? ==>
              forall i :: 0 <= i < |order| ==> r.attempts[i] == Attempt(order[i], action.ev, order[i] !in failures)
    ensures action.Publish? ==> forall h :: h in r.hub.conns <==> h in hub.conns && !(h in order && h in failures)
  {
    match action
    case SendTo(to, ev) =>
      if to in failures then
        Step(Hub(hub.store, Disconnect(hub.conns, sender)), [Attempt(to, ev, false)],
             Closed(failures[to] == SendError))
      else
        Step(hub, [Attempt(to, ev, true)], Open)
    case Publish(ev) =>
      var b := Broadcast(order, ev, failures, hub.conns);
      Step(Hub(hub.store, b.conns), b.attempts, Open)
    case Raise =>
      Step(Hub(hub.store, Disconnect(hub.conns, sender)), [], Closed(true))
  }

  /** What `receive_json` yields: a decoded frame, a disconnect
      (`WebSocketDisconnect`), or another error such as undecodable text. */
  datatype Inbound = Frame(msg: Json) | ClientGone | BadFrame

  /** One turn of the receive loop of `sender`. */
  function Receive(hub: Hub, sender: Handle, input: Inbound, order: seq<Handle>, failures: Failures,
                   t1: Timestamp, t2: Timestamp): (r: Step)
    ensures r.hub.conns <= hub.conns
    ensures r.hub.store != hub.store ==> input.Frame? && UsableTelemetry(input.msg)
    ensures r.conn == Closed(false) ==>
              input == ClientGone || (input.Frame? && sender in failures && failures[sender] == PeerGone)
  {
    match input
    case ClientGone => Step(Hub(hub.store, Disconnect(hub.conns, sender)), [], Closed(false))
    case BadFrame => Step(Hub(hub.store, Disconnect(hub.conns, sender)), [], Closed(true))
    case Frame(msg) =>
      var plan := Dispatch(hub.store, sender, msg, t1, t2);
      Perform(Hub(plan.store, hub.conns), sender, plan.action, order, failures)
  }

  /** The handshake: the handle is registered first, then `hello` carrying a
      copy of the store is sent. This send is outside the `try`, so when it
      fails the exception propagates and the handle stays registered. */
  function OnConnect(hub: Hub, h: Handle, failures: Failures, t: Timestamp): (r: Step)
    ensures h in r.hub.conns && r.hub.conns == Connect(hub.conns, h)
    ensures r.hub.store == hub.store
    ensures r.attempts == [Attempt(h, Hello(HelloMessage, t, hub.store), h !in failures)]
    ensures r.conn == if h in failures then Closed(true) else Open
  {
    var conns := Connect(hub.conns, h);
    var hello := Hello(HelloMessage, t, hub.store);
    if h in failures then Step(Hub(hub.store, conns), [Attempt(h, hello, false)], Closed(true))
    else Step(Hub(hub.store, conns), [Attempt(h, hello, true)], Open)
  }

  /** A decoded object whose `type` is exactly the given text. */
  predicate HasType(msg: Json, tag: string) {
    msg.JObj? && Get(msg.fields, "type") == JStr(tag)
  }

  /** Telemetry whose `device_id` is truthy and can key the store. */
  predicate UsableTelemetry(msg: Json) {
    HasType(msg, "telemetry") && Truthy(Get(msg.fields, "device_id")) && Hashable(Get(msg.fields, "device_id"))
  }

  /** Some attempt sent `ev` to `h`, with the given outcome. */
  predicate Reached(attempts: seq<Attempt>, h: Handle, ev: Event, delivered: bool) {
    Attempt(h, ev, delivered) in attempts
  }

  /** Telemetry with a usable id updates only that id's record and broadcasts
      one `data_update` (source `websocket`) to every registered handle,
      the sender included; exactly the failing handles are pruned. */
  lemma TelemetryUpdatesAndBroadcasts(hub: Hub, sender: Handle, msg: Json, order: seq<Handle>, failures: Failures,
                                      t1: Timestamp, t2: Timestamp)
    requires HasType(msg, "telemetry")
    requires Truthy(Get(msg.fields, "device_id")) && Hashable(Get(msg.fields, "device_id"))
    requires Enumerates(order, hub.conns)
    ensures var id := Get(msg.fields, "device_id");
            var value := Get(msg.fields, "value");
            var ev := DataUpdate(id, value, t2, WebSocket);
            var s := Receive(hub, sender, Frame(msg), order, failures, t1, t2);
            && s.conn == Open
            && s.hub.store == Put(hub.store, id, value, t1)
            && |s.attempts| == |hub.conns|
            && (forall a :: a in s.attempts ==> a.ev == ev && a.to in hub.conns)
            && (forall h :: h in hub.conns && h in failures ==> Reached(s.attempts, h, ev, false))
            && (forall h :: h in hub.conns && h !in failures ==> Reached(s.attempts, h, ev, true))
            && (forall h :: h in s.hub.conns <==> h in hub.conns && h !in failures)
  {
    var id := Get(msg.fields, "device_id");
    var ev := DataUpdate(id, Get(msg.fields, "value"), t2, WebSocket);
    var s := Receive(hub, sender, Frame(msg), order, failures, t1, t2);
    DistinctCardinality(order);
    forall h | h in hub.conns
      ensures (h in failures ==> Reached(s.attempts, h, ev, false)) && (h !in failures ==> Reached(s.attempts, h, ev, true))
    {
      assert h in Elements(order);
      var i :| 0 <= i < |order| && order[i] == h;
      assert s.attempts[i] == Attempt(h, ev, h !in failures);
    }
  }

  /** The sender's own telemetry comes back to it (no sender exclusion). */
  lemma TelemetryReachesSender(hub: Hub, sender: Handle, msg: Json, order: seq<Handle>, failures: Failures,
                               t1: Timestamp, t2: Timestamp)
    requires HasType(msg, "telemetry")
    requires Truthy(Get(msg.fields, "device_id")) && Hashable(Get(msg.fields, "device_id"))
    requires Enumerates(order, hub.conns)
    requires sender in hub.conns && sender !in failures
    ensures var s := Receive(hub, sender, Frame(msg), order, failures, t1, t2);
            Reached(s.attempts, sender, DataUpdate(Get(msg.fields, "device_id"), Get(msg.fields, "value"), t2, WebSocket), true)
  {
    TelemetryUpdatesAndBroadcasts(hub, sender, msg, order, failures, t1, t2);
  }

  /** Telemetry whose `device_id` is missing or falsy, or is a list or dict,
      raises: nothing is stored or sent, the sender is discarded and the
      error is re-raised. */
  lemma TelemetryWithoutUsableIdDropsSender(hub: Hub, sender: Handle, msg: Json, order: seq<Handle>,
                                            failures: Failures, t1: Timestamp, t2: Timestamp)
    requires HasType(msg, "telemetry")
    requires !Truthy(Get(msg.fields, "device_id")) || !Hashable(Get(msg.fields, "device_id"))
    ensures var s := Receive(hub, sender, Frame(msg), order, failures, t1, t2);
            && s.hub.store == hub.store
            && s.hub.conns == hub.conns - {sender}
            && s.attempts == []
            && s.conn == Closed(true)
  {
  }

  /** A frame that decodes to something other than an object is handled like
      any other unexpected error. */
  lemma NonObjectFrameDropsSender(hub: Hub, sender: Handle, msg: Json, order: seq<Handle>,
                                  failures: Failures, t1: Timestamp, t2: Timestamp)
    requires !msg.JObj?
    ensures var s := Receive(hub, sender, Frame(msg), order, failures, t1, t2);
            && s.hub.store == hub.store
            && s.hub.conns == hub.conns - {sender}
            && s.attempts == []
            && s.conn == Closed(true)
  {
  }

  /** `ping` sends exactly one `pong`, to the sender only, and changes nothing
      else while that send succeeds. */
  lemma PingAnswersSenderOnly(hub: Hub, sender: Handle, msg: Json, order: seq<Handle>,
                              failures: Failures, t1: Timestamp, t2: Timestamp)
    requires HasType(msg, "ping")
    ensures var s := Receive(hub, sender, Frame(msg), order, failures, t1, t2);
            && s.hub.store == hub.store
            && s.attempts == [Attempt(sender, Pong(t1), sender !in failures)]
            && (sender !in failures ==> s.hub == hub && s.conn == Open)
            && (sender in failures ==>
                  s.hub.conns == hub.conns - {sender} && s.conn == Closed(failures[sender] == SendError))
  {
  }

  /** An unrecognised `type` (or none) sends exactly one `echo` to the sender,
      carrying the message as received; no state change, no broadcast. */
  lemma UnknownTypeEchoesToSender(hub: Hub, sender: Handle, msg: Json, order: seq<Handle>,
                                  failures: Failures, t1: Timestamp, t2: Timestamp)
    requires msg.JObj?
    requires !HasType(msg, "telemetry") && !HasType(msg, "ping") && !HasType(msg, "control")
    ensures var s := Receive(hub, sender, Frame(msg), order, failures, t1, t2);
            && s.hub.store == hub.store
            && |s.attempts| == 1
            && s.attempts[0].to == sender
            && s.attempts[0].ev.Echo?
            && s.attempts[0].ev.received == msg
            && s.attempts[0].ev.note == UnrecognizedNote
            && s.attempts[0].ev.timestamp == t1
            && (sender !in failures ==> s.hub == hub && s.conn == Open)
            && (sender in failures ==>
                  s.hub.conns == hub.conns - {sender} && s.conn == Closed(failures[sender] == SendError))
  {
  }

  /** `control` is a pure relay: the store is untouched and a `control` event
      with `target`, `command` and `args` (a missing or empty `args` becomes
      `{}`) goes to every handle of the snapshot. */
  lemma ControlIsRelayed(hub: Hub, sender: Handle, msg: Json, order: seq<Handle>,
                         failures: Failures, t1: Timestamp, t2: Timestamp)
    requires HasType(msg, "control")
    ensures var s := Receive(hub, sender, Frame(msg), order, failures, t1, t2);
            var args := Get(msg.fields, "args");
            && s.hub.store == hub.store
            && s.conn == Open
            && (forall h :: h in s.hub.conns <==> h in hub.conns && !(h in order && h in failures))
            && |s.attempts| == |order|
            && forall i :: 0 <= i < |order| ==>
                 && s.attempts[i].to == order[i]
                 && s.attempts[i].ev.Control?
                 && s.attempts[i].ev.target == Get(msg.fields, "target")
                 && s.attempts[i].ev.command == Get(msg.fields, "command")
                 && s.attempts[i].ev.source == WebSocket
                 && s.attempts[i].ev.timestamp == t1
                 && s.attempts[i].delivered == (order[i] !in failures)
                 && (Truthy(args) ==> s.attempts[i].ev.args == args)
                 && (!Truthy(args) ==> s.attempts[i].ev.args == EmptyObject)
  {
  }

  /** Every way out of the receive loop discards the sender; only a normal
      disconnect ends without re-raising. */
  lemma EveryExitDiscardsSender(hub: Hub, sender: Handle, input: Inbound, order: seq<Handle>,
                                failures: Failures, t1: Timestamp, t2: Timestamp)
    ensures var s := Receive(hub, sender, input, order, failures, t1, t2);
            && (s.conn.Closed? ==> sender !in s.hub.conns)
            && (s.conn.Closed? ==> s.hub.conns == hub.conns - {sender})
            && (input == ClientGone ==> s.conn == Closed(false))
            && (input == BadFrame ==> s.conn == Closed(true))
            && (s.conn == Closed(false) ==>
                  input == ClientGone || (input.Frame? && sender in failures && failures[sender] == PeerGone))
  {
  }

  /** No inbound message removes a handle other than the sender except by a
      failed broadcast send, and none adds a handle. */
  lemma OnlySenderOrFailedHandlesLeave(hub: Hub, sender: Handle, input: Inbound, order: seq<Handle>,
                                       failures: Failures, t1: Timestamp, t2: Timestamp, h: Handle)
    requires h in hub.conns && h != sender && !(h in order && h in failures)
    ensures var s := Receive(hub, sender, input, order, failures, t1, t2);
            h in s.hub.conns && s.hub.conns <= hub.conns
  {
  }

  /** A client that connects to an empty hub is greeted with an empty
      snapshot; its telemetry `t1 = 23.5` is stored and sent back to it as a
      `data_update` from `websocket`. */
  lemma GreetingThenOwnTelemetry(a: Handle, t0: Timestamp, t1: Timestamp, t2: Timestamp)
    ensures var c := OnConnect(Hub(map[], {}), a, map[], t0);
            var msg := JObj(map["type" := JStr("telemetry"), "device_id" := JStr("t1"), "value" := JNum(23.5)]);
            var s := Receive(c.hub, a, Frame(msg), [a], map[], t1, t2);
            && c.attempts == [Attempt(a, Hello(HelloMessage, t0, map[]), true)]
            && s.hub.store == map[JStr("t1") := Record(JNum(23.5), t1)]
            && s.attempts == [Attempt(a, DataUpdate(JStr("t1"), JNum(23.5), t2, WebSocket), true)]
  {
    var c := OnConnect(Hub(map[], {}), a, map[], t0);
    var msg := JObj(map["type" := JStr("telemetry"), "device_id" := JStr("t1"), "value" := JNum(23.5)]);
    assert Get(msg.fields, "type") == JStr("telemetry");
    assert Get(msg.fields, "device_id") == JStr("t1");
    assert Get(msg.fields, "value") == JNum(23.5);
  }

  /** A failed `hello` leaves the handle registered; the next broadcast whose
      send to it fails removes it. */
  lemma FailedHelloIsPrunedByNextBroadcast(hub: Hub, h: Handle, failures: Failures, t: Timestamp,
                                           order: seq<Handle>, ev: Event)
    requires h in failures
    requires Enumerates(order, Connect(hub.conns, h))
    ensures var c := OnConnect(hub, h, failures, t);
            && c.conn == Closed(true)
            && h in c.hub.conns
            && h !in Broadcast(order, ev, failures, c.hub.conns).conns
  {
    assert h in Elements(order);
  }
}

=== FILE: events.dfy ===
/** The events the hub sends to WebSocket clients. Each carries a `type` tag
    and a `timestamp_utc`; JSON framing is not modelled. */
module Events {
  import opened JsonValues
  import opened StateStore

  /** Where an update or command entered the hub (`"rest"` or `"websocket"`). */
  datatype Source = Rest | WebSocket {
    function Tag(): string {
      match this
      case Rest => "rest"
      case WebSocket => "websocket"
    }
  }

  datatype Event =
    | Hello(message: string, timestamp: Timestamp, snapshot: Store)
    | DataUpdate(deviceId: Json, value: Json, timestamp: Timestamp, source: Source)
    | Control(target: Json, command: Json, args: Json, timestamp: Timestamp, source: Source)
    | Pong(timestamp: Timestamp)
    | Echo(timestamp: Timestamp, received: Json, note: string)
  {
    /** The event's `type` field. */
    function Tag(): string {
      match this
      case Hello(_, _, _) => "hello"
      case DataUpdate(_, _, _, _) => "data_update"
      case Control(_, _, _, _, _) => "control"
      case Pong(_) => "pong"
      case Echo(_, _, _) => "echo"
    }
  }

  const HelloMessage := "connected"
  const UnrecognizedNote := "Unrecognized message type"
}

=== FILE: json.dfy ===
/** Decoded JSON values as the hub receives them, with the Python predicates
    the dispatcher applies to them. */
module JsonValues {

  /** One decoded JSON value; numbers are kept as exact reals. */
  datatype Json =
    | JNull
    | JBool(b: bool)
    | JNum(n: real)
    | JStr(s: string)
    | JArr(items: seq<Json>)
    | JObj(fields: map<string, Json>)

  /** Python truthiness of a decoded value, as used by `if not x` and `x or {}`. */
  predicate Truthy(j: Json) {
    match j
    case JNull => false
    case JBool(b) => b
    case JNum(n) => n != 0.0
    case JStr(s) => |s| > 0
    case JArr(items) => |items| > 0
    case JObj(fields) => |fields| > 0
  }

  /** Decoded lists and dicts cannot be used as dict keys (Python raises TypeError). */
  predicate Hashable(j: Json) {
    !j.JArr? && !j.JObj?
  }

  /** `d.get(key)`: Python `None` (JSON null) when the key is absent. */
  function Get(fields: map<string, Json>, key: string): Json {
    if key in fields then fields[key] else JNull
  }

  /** `x or default`: keeps a truthy value, otherwise the default. */
  function OrElse(x: Json, default: Json): Json {
    if Truthy(x) then x else default
  }

  /** The empty dict `{}`. */
  const EmptyObject: Json := JObj(map[])
}

=== FILE: registry.dfy ===
/** The connection registry `ConnectionManager._connections`: a set of live
    WebSocket handles. Every access is one critical section under the manager's
    lock, modelled as one atomic step. */
module ConnectionRegistry {
  import opened Wrappers

  /** An opaque WebSocket handle; only its identity matters. */
  type Handle = nat

  /** `connect`: the handle is added (after the socket is accepted). */
  function Connect(conns: set<Handle>, h: Handle): (r: set<Handle>)
    ensures h in r
    ensures forall x :: x != h ==> (x in r <==> x in conns)
    ensures |r| == if h in conns then |conns| else |conns| + 1
  {
    assert h in conns ==> conns + {h} == conns;
    conns + {h}
  }

  /** `disconnect`: `discard`, so removing an absent handle changes nothing. */
  function Disconnect(conns: set<Handle>, h: Handle): (r: set<Handle>)
    ensures h !in r
    ensures forall x :: x != h ==> (x in r <==> x in conns)
    ensures h !in conns ==> r == conns
    ensures |r| == if h in conns then |conns| - 1 else |conns|
  {
    assert h !in conns ==> conns - {h} == conns;
    conns - {h}
  }

  /** `count`: the number of registered handles; zero only for an empty
      registry. */
  function Count(conns: set<Handle>): (r: nat)
    ensures r == 0 <==> conns == {}
  {
    |conns|
  }

  /** One registry call, in the order the lock serialises them. */
  datatype RegistryOp = Add(h: Handle) | Remove(h: Handle)

  function Replay(conns: set<Handle>, ops: seq<RegistryOp>): set<Handle>
    decreases |ops|
  {
    if |ops| == 0 then conns
    else
      var prev := Replay(conns, ops[..|ops| - 1]);
      match ops[|ops| - 1]
      case Add(h) => Connect(prev, h)
      case Remove(h) => Disconnect(prev, h)
  }

  /** The last operation in `ops` that names `h`, if any. */
  function LastOpOn(ops: seq<RegistryOp>, h: Handle): (r: Option<RegistryOp>)
    ensures r.Some? ==> r.value.h == h
    decreases |ops|
  {
    if |ops| == 0 then None
    else if ops[|ops| - 1].h == h then Some(ops[|ops| - 1])
    else LastOpOn(ops[..|ops| - 1], h)
  }

  /** After any serialised run of connects and disconnects a handle is
      registered exactly when the last call naming it was a connect, or no
      call named it and it was registered before. */
  lemma {:induction false} ReplayMembership(conns: set<Handle>, ops: seq<RegistryOp>, h: Handle)
    ensures h in Replay(conns, ops) <==>
              match LastOpOn(ops, h)
              case Some(op) => op.Add?
              case None => h in conns
    decreases |ops|
  {
    if |ops| > 0 {
      ReplayMembership(conns, ops[..|ops| - 1], h);
    }
  }

  function AddAll(hs: seq<Handle>): (r: seq<RegistryOp>)
    ensures |r| == |hs|
    ensures forall i :: 0 <= i < |hs| ==> r[i] == Add(hs[i])
  {
    if |hs| == 0 then [] else [Add(hs[0])] + AddAll(hs[1..])
  }

  function RemoveAll(hs: seq<Handle>): (r: seq<RegistryOp>)
    ensures |r| == |hs|
    ensures forall i :: 0 <= i < |hs| ==> r[i] == Remove(hs[i])
  {
    if |hs| == 0 then [] else [Remove(hs[0])] + RemoveAll(hs[1..])
  }

  predicate Distinct(hs: seq<Handle>) {
    forall i, j :: 0 <= i < j < |hs| ==> hs[i] != hs[j]
  }

  function Elements(hs: seq<Handle>): set<Handle> {
    set h | h in hs
  }

  lemma {:induction false} DistinctCardinality(hs: seq<Handle>)
    requires Distinct(hs)
    ensures |Elements(hs)| == |hs|
    decreases |hs|
  {
    if |hs| > 0 {
      var init := hs[..|hs| - 1];
      assert Distinct(init);
      DistinctCardinality(init);
      assert Elements(hs) == Elements(init) + {hs[|hs| - 1]};
      assert hs[|hs| - 1] !in Elements(init);
    }
  }

  /** N connects of distinct new handles followed by M disconnects of distinct
      handles among them leave the count at the old count plus N minus M. */
  lemma CountAfterConnectsAndDisconnects(conns: set<Handle>, added: seq<Handle>, removed: seq<Handle>)
    requires Distinct(added) && Distinct(removed)
    requires forall h :: h in added ==> h !in conns
    requires forall h :: h in removed ==> h in added
    ensures Count(Replay(conns, AddAll(added) + RemoveAll(removed))) == Count(conns) + |added| - |removed|
  {
    var ops := AddAll(added) + RemoveAll(removed);
    var expected := conns + Elements(added) - Elements(removed);
    forall h
      ensures h in Replay(conns, ops) <==> h in expected
    {
      ReplayMembership(conns, ops, h);
      LastOpShape(added, removed, h);
    }
    assert Replay(conns, ops) == expected;
    DistinctCardinality(added);
    DistinctCardinality(removed);
    assert Elements(removed) <= Elements(added);
    assert conns !! Elements(added);
    assert |conns + Elements(added)| == |conns| + |added|;
    assert Elements(removed) <= conns + Elements(added);
  }

  /** Which operation names `h` last in connects-then-disconnects. */
  lemma {:induction false} LastOpShape(added: seq<Handle>, removed: seq<Handle>, h: Handle)
    ensures h in removed ==> LastOpOn(AddAll(added) + RemoveAll(removed), h) == Some(Remove(h))
    ensures h !in removed && h in added ==> LastOpOn(AddAll(added) + RemoveAll(removed), h) == Some(Add(h))
    ensures h !in removed && h !in added ==> LastOpOn(AddAll(added) + RemoveAll(removed), h) == None
    decreases |removed|
  {
    var ops := AddAll(added) + RemoveAll(removed);
    if |removed| == 0 {
      assert ops == AddAll(added);
      LastOpOfAdds(added, h);
    } else {
      var init := removed[..|removed| - 1];
      var last := removed[|removed| - 1];
      var prefix := AddAll(added) + RemoveAll(init);
      assert RemoveAll(removed) == RemoveAll(init) + [Remove(last)];
      assert ops == prefix + [Remove(last)];
      assert ops[..|ops| - 1] == prefix;
      if last != h {
        assert h in removed <==> h in init;
        LastOpShape(added, init, h);
      }
    }
  }

  lemma {:induction false} LastOpOfAdds(added: seq<Handle>, h: Handle)
    ensures h in added ==> LastOpOn(AddAll(added), h) == Some(Add(h))
    ensures h !in added ==> LastOpOn(AddAll(added), h) == None
    decreases |added|
  {
    if |added| > 0 {
      var init := added[..|added| - 1];
      assert AddAll(added)[..|added| - 1] == AddAll(init);
      LastOpOfAdds(init, h);
    }
  }
}

=== FILE: rest_api.dfy ===
/** The REST handlers `status`, `get_data`, `post_data` and `control`: the same
    store and broadcast steps as the WebSocket path, behind request-body
    validation. */
module RestApi {
  import opened Wrappers
  import opened JsonValues
  import opened StateStore
  import opened ConnectionRegistry
  import opened Events
  import opened BroadcastHub
  import opened Dispatcher

  /** Body of `POST /api/data`. */
  datatype DataUpdateBody = DataUpdateBody(deviceId: string, value: Json)

  /** Body of `POST /api/control`; `args` is an optional dict. */
  datatype ControlBody = ControlBody(target: string, command: string, args: Option<map<string, Json>>)

  /** A body rejected by validation (HTTP 422) before the handler runs; lists
      the fields that break their `min_length=1` constraint. */
  datatype Rejected = Rejected(fields: seq<string>)

  datatype StatusReply = StatusReply(ok: bool, devicesKnown: nat, clientsConnected: nat, timestamp: Timestamp)
  datatype DataReply = DataReply(timestamp: Timestamp, data: Store)
  datatype PostReply = PostReply(ok: bool, stored: bool, event: Event)
  datatype ControlReply = ControlReply(ok: bool, dispatched: bool, event: Event)

  /** A handled request: the hub afterwards, the sends it made, and the reply. */
  datatype Served<R> = Served(hub: Hub, attempts: seq<Attempt>, reply: R)

  /** `GET /api/status`: counts read under each lock in turn; nothing changes. */
  function Status(hub: Hub, t: Timestamp): (r: StatusReply)
    ensures r.ok
    ensures r.devicesKnown == |hub.store.Keys|
    ensures r.clientsConnected == |hub.conns|
    ensures r.timestamp == t
  {
    StatusReply(true, |hub.store|, ConnectionRegistry.Count(hub.conns), t)
  }

  /** `GET /api/data`: a copy of the store with the current time. */
  function GetData(hub: Hub, t: Timestamp): (r: DataReply)
    ensures r.data == hub.store && r.timestamp == t
  {
    DataReply(t, hub.store)
  }

  /** `POST /api/data`: store the value under the id (clock reading `t1`),
      then broadcast a `data_update` from `rest` (clock reading `t2`) over the
      snapshot `order`, and echo that event back with `stored = true`. */
  function PostData(hub: Hub, body: DataUpdateBody, order: seq<Handle>, failures: Failures,
                    t1: Timestamp, t2: Timestamp): (r: Result<Served<PostReply>, Rejected>)
    ensures |body.deviceId| == 0 <==> r.Err?
    ensures r.Err? ==> r.error.fields == ["device_id"]
    ensures r.Ok? ==>
              var id := JStr(body.deviceId);
              var s := r.value;
              && s.hub.store.Keys == hub.store.Keys + {id}
              && s.hub.store[id] == Record(body.value, t1)
              && (forall k :: k in hub.store && k != id ==> s.hub.store[k] == hub.store[k])
              && s.reply == PostReply(true, true, DataUpdate(id, body.value, t2, Rest))
              && s.reply.event.Tag() == "data_update" && s.reply.event.source.Tag() == "rest"
              && |s.attempts| == |order|
              && (forall i :: 0 <= i < |order| ==>
                    s.attempts[i] == Attempt(order[i], s.reply.event, order[i] !in failures))
              && (forall h :: h in s.hub.conns <==> h in hub.conns && !(h in order && h in failures))
  {
    if |body.deviceId| == 0 then Err(Rejected(["device_id"]))
    else
      var id := JStr(body.deviceId);
      var store := Put(hub.store, id, body.value, t1);
      var ev := DataUpdate(id, body.value, t2, Rest);
      var b := Broadcast(order, ev, failures, hub.conns);
      Ok(Served(Hub(store, b.conns), b.attempts, PostReply(true, true, ev)))
  }

  /** The fields of a control body that are empty, in declaration order. */
  function ControlViolations(body: ControlBody): (r: seq<string>)
    ensures |r| == 0 <==> |body.target| > 0 && |body.command| > 0
  {
    (if |body.target| == 0 then ["target"] else []) + (if |body.command| == 0 then ["command"] else [])
  }

  /** `POST /api/control`: a pure relay that never touches the store; an absent
      or empty `args` becomes `{}`. */
  function ControlCommand(hub: Hub, body: ControlBody, order: seq<Handle>, failures: Failures,
                          t: Timestamp): (r: Result<Served<ControlReply>, Rejected>)
    ensures r.Err? <==> |body.target| == 0 || |body.command| == 0
    ensures r.Ok? ==>
              var s := r.value;
              var ev := s.reply.event;
              && s.hub.store == hub.store
              && s.reply.ok && s.reply.dispatched
              && ev.Control?
              && ev.Tag() == "control" && ev.source.Tag() == "rest"
              && ev == Control(JStr(body.target), JStr(body.command), ev.args, t, Rest)
              && (ev.args == EmptyObject <==> body.args.None? || |body.args.value| == 0)
              && (body.args.Some? && |body.args.value| > 0 ==> ev.args == JObj(body.args.value))
              && |s.attempts| == |order|
              && (forall i :: 0 <= i < |order| ==>
                    s.attempts[i] == Attempt(order[i], ev, order[i] !in failures))
              && (forall h :: h in s.hub.conns <==> h in hub.conns && !(h in order && h in failures))
  {
    var bad := ControlViolations(body);
    if |bad| > 0 then Err(Rejected(bad))
    else
      var args := OrElse(JObj(body.args.GetOr(map[])), EmptyObject);
      var ev := Control(JStr(body.target), JStr(body.command), args, t, Rest);
      var b := Broadcast(order, ev, failures, hub.conns);
      Ok(Served(Hub(hub.store, b.conns), b.attempts, ControlReply(true, true, ev)))
  }

  /** An external update while subscriber `b` is registered: `b` is sent the
      `data_update` from `rest`, and a later read of the data shows the value. */
  lemma ExternalUpdateReachesSubscriber(hub: Hub, b: Handle, order: seq<Handle>, t1: Timestamp, t2: Timestamp,
                                        t3: Timestamp)
    requires Enumerates(order, hub.conns) && b in hub.conns
    ensures var r := PostData(hub, DataUpdateBody("t2", JNum(7.0)), order, map[], t1, t2);
            && r.Ok?
            && Attempt(b, DataUpdate(JStr("t2"), JNum(7.0), t2, Rest), true) in r.value.attempts
            && GetData(r.value.hub, t3).data[JStr("t2")].value == JNum(7.0)
  {
    var r := PostData(hub, DataUpdateBody("t2", JNum(7.0)), order, map[], t1, t2);
    assert b in Elements(order);
    var i :| 0 <= i < |order| && order[i] == b;
    assert r.value.attempts[i] == Attempt(b, DataUpdate(JStr("t2"), JNum(7.0), t2, Rest), true);
  }

  /** Read after write: the data read after an accepted `POST /api/data`
      holds the new record for that id and every other record as before. */
  lemma ReadAfterPost(hub: Hub, body: DataUpdateBody, order: seq<Handle>, failures: Failures,
                      t1: Timestamp, t2: Timestamp, t3: Timestamp)
    requires |body.deviceId| > 0
    ensures var d := GetData(PostData(hub, body, order, failures, t1, t2).value.hub, t3).data;
            && d.Keys == hub.store.Keys + {JStr(body.deviceId)}
            && d[JStr(body.deviceId)] == Record(body.value, t1)
            && forall k :: k in hub.store && k != JStr(body.deviceId) ==> d[k] == hub.store[k]
  {
  }

  /** `devices_known` grows by one after an accepted `POST /api/data` exactly
      when the id was new; the client count is untouched by a post in which
      no send fails. */
  lemma StatusAfterPost(hub: Hub, body: DataUpdateBody, order: seq<Handle>, t1: Timestamp, t2: Timestamp,
                        t3: Timestamp, t4: Timestamp)
    requires |body.deviceId| > 0
    ensures var after := Status(PostData(hub, body, order, map[], t1, t2).value.hub, t3);
            && after.devicesKnown == Status(hub, t4).devicesKnown + (if JStr(body.deviceId) in hub.store then 0 else 1)
            && after.clientsConnected == Status(hub, t4).clientsConnected
  {
    var s := PostData(hub, body, order, map[], t1, t2).value;
    assert s.hub.conns == hub.conns;
  }

  /** `websocket_clients_connected` grows by one after a handshake exactly when
      the handle was not yet registered; `devices_known` does not change. */
  lemma StatusAfterConnect(hub: Hub, h: Handle, failures: Failures, t: Timestamp, t3: Timestamp, t4: Timestamp)
    ensures var after := Status(OnConnect(hub, h, failures, t).hub, t3);
            && after.clientsConnected == Status(hub, t4).clientsConnected + (if h in hub.conns then 0 else 1)
            && after.devicesKnown == Status(hub, t4).devicesKnown
  {
  }
}

=== FILE: state_store.dfy ===
/** The shared device-state store `STATE`: device id -> {value, updated_at_utc}.
    Each access is one critical section under `STATE_LOCK`, modelled as one
    atomic step. */
module StateStore {
  import opened JsonValues

  /** An ISO-8601 text produced by the clock; kept opaque. */
  type Timestamp = string

  /** The record stored per device. */
  datatype Record = Record(value: Json, updatedAt: Timestamp)

  /** Keys are the device ids exactly as received: REST ids are strings, a
      WebSocket id may be any truthy hashable JSON value. */
  type Store = map<Json, Record>

  /** `STATE[id] = {"value": value, "updated_at_utc": at}`: the record for `id`
      is replaced, every other entry is left as it was. */
  function Put(store: Store, id: Json, value: Json, at: Timestamp): (r: Store)
    ensures r.Keys == store.Keys + {id}
    ensures id in r && r[id] == Record(value, at)
    ensures forall k :: k in store && k != id ==> r[k] == store[k]
  {
    store[id := Record(value, at)]
  }

  /** One committed write, in commit order. */
  datatype Write = Write(id: Json, value: Json, at: Timestamp)

  /** The store after the given writes are committed one after another. */
  function PutAll(store: Store, writes: seq<Write>): Store
    decreases |writes|
  {
    if |writes| == 0 then store
    else
      var w := writes[|writes| - 1];
      Put(PutAll(store, writes[..|writes| - 1]), w.id, w.value, w.at)
  }

  /** No write at or after position `i` touches `id`. */
  predicate UntouchedFrom(writes: seq<Write>, id: Json, i: nat) {
    forall j :: i <= j < |writes| ==> writes[j].id != id
  }

  /** Last write wins: after a run of writes, the record for `id` is the one of
      the last write to `id`; an id no write touches keeps its old record. */
  lemma {:induction false} LastWriteWins(store: Store, writes: seq<Write>, id: Json)
    ensures UntouchedFrom(writes, id, 0) ==>
              (id in PutAll(store, writes) <==> id in store) &&
              (id in store ==> PutAll(store, writes)[id] == store[id])
    ensures forall i :: 0 <= i < |writes| && writes[i].id == id && UntouchedFrom(writes, id, i + 1) ==>
              id in PutAll(store, writes) &&
              PutAll(store, writes)[id] == Record(writes[i].value, writes[i].at)
    decreases |writes|
  {
    if |writes| > 0 {
      var init := writes[..|writes| - 1];
      LastWriteWins(store, init, id);
      if writes[|writes| - 1].id != id {
        LastWriteSkipsOther(store, writes, id);
      }
    }
  }

  /** The induction step of `LastWriteWins` when the newest write is to
      another id: the record for `id` is the one before that write. */
  lemma LastWriteSkipsOther(store: Store, writes: seq<Write>, id: Json)
    requires |writes| > 0 && writes[|writes| - 1].id != id
    ensures var init := writes[..|writes| - 1];
            (id in PutAll(store, writes) <==> id in PutAll(store, init)) &&
            (id in PutAll(store, init) ==> PutAll(store, writes)[id] == PutAll(store, init)[id])
    ensures UntouchedFrom(writes, id, 0) ==> UntouchedFrom(writes[..|writes| - 1], id, 0)
    ensures forall i :: 0 <= i < |writes| && UntouchedFrom(writes, id, i + 1) && writes[i].id == id ==>
              i < |writes| - 1 && UntouchedFrom(writes[..|writes| - 1], id, i + 1) &&
              writes[..|writes| - 1][i] == writes[i]
  {
  }

  /** Two writes to the same id: a later read shows the second value, never the first. */
  lemma SecondWriteIsAuthoritative(store: Store, id: Json, v1: Json, t1: Timestamp, v2: Json, t2: Timestamp)
    ensures PutAll(store, [Write(id, v1, t1), Write(id, v2, t2)])[id].value == v2
  {
    LastWriteWins(store, [Write(id, v1, t1), Write(id, v2, t2)], id);
  }
}

=== FILE: wrappers.dfy ===
/** Optional values and results with an error branch, shared by every module. */
module Wrappers {

  datatype Option<+T> = None | Some(value: T) {
    /** The carried value, or `default` when there is none (Python's `x or default`). */
    function GetOr(default: T): T {
      match this
      case Some(v) => v
      case None => default
    }
  }

  datatype Result<+T, +E> = Ok(value: T) | Err(error: E)
}
